=== FILE: README.md ===
# Analyst: response interpretation and request gating, in Dafny

Analyst is a plugin for a note-taking application. It sends the words of the
active note to a chat-completion endpoint and receives a JSON reply with keys
"1" to "9". It then shows the reply in a side panel and puts a one-line
summary in the status bar. This project models the plugin's decision and
formatting rules as pure Dafny functions, and proves what those rules promise:

- **Labelling the four percentage pairs** (keys 3–6, module `Bipolar`). The
  dominant pole goes in bold as `"<Pole> <n>%"`, and the other pole follows the
  slash. The test is a strict `>`, so on a tie the second pole is primary.
- **The panel** (module `View`). A fixed template has thirteen slots, and a
  constant placeholder is shown before any analysis. A filled panel holds
  every fixed piece and every slot value verbatim, each at its own offset.
  When no slot value contains `<`, a reader recovers every slot from it.
- **The panel update** (module `Interpreter`, `activateView`). A reply that
  parsed is mapped onto the slots. A reply that did not parse shows the error
  notice. When the five category values contain no `<`, all nine values can
  be read back from the rendered panel.
- **The request** (module `Prompt`). The user message is the instruction text
  followed by the note's words, split on `" "` and joined with `", "`, in
  brackets. A note with fewer than 100 words is refused. Because splitting
  the empty string gives one part, an empty note counts as one word.
- **One run of `analyse`** (module `Analyst`, properties in
  `AnalystProperties`). This covers the credential gate and the choice between
  the licensed proxy and a direct OpenAI key. It also covers the reply
  envelope of each mode and the status-bar summary: the reply's first line
  without its first three characters.

The licence check, the HTTP exchange and `JSON.parse` are collaborators. The
licence result is a `bool` parameter, and the endpoint's answer is an `Http`
value: not ok, a body that does not decode as JSON (or decodes to `null`), or
a decoded body. Of the body, the model keeps the proxy's `response` and
OpenAI's `choices[0].message`, noting whether that message can be read and
whether its `content` is a string. `JSON.parse`, together with the
indexing that `activateView` does on its result, is a parameter
`parse: string -> Option<Reply>`; `None` means that the parse threw or that
the reply lacks the expected shape (a missing key, or a pair that is not two
numbers).

Points where the code behaves differently from what one might expect. The
model follows the code (main.ts):

- Ties. One might expect the first-listed pole to win a tie. The code
  compares with a strict `>` (main.ts:186-209), so the second pole wins
  (`Bipolar.TieGoesToSecondPole`).
- Pole order of pair 5. The instruction text lists "Uncertain / Certain"
  (main.ts:38). The view labels the first number "Certain" (main.ts:198-203).
  `Bipolar.CertainUncertain` follows the view.
- Number of slots. The template has thirteen slots plus an `unanalysed` flag
  (main.ts:49-64).
- Return value. An invalid licence ends the run with a bare `return`
  (main.ts:232), so `analyse` resolves to `undefined`. The other refusals
  resolve to `""` (`Analyst.Returns`).

## Model

| member | source | states |
|---|---|---|
| Bipolar.Dominance | main.ts:186-209 | the two labels are exactly the first pole with the first number and the second pole with the second number, in some order |
| Bipolar.DominanceDescribes | main.ts:186-209 | a labelling reads as "both poles once, each with its own number, primary number at least the secondary, and the second pole primary on a tie" if and only if it is the labelling the view produces |
| Bipolar.TieGoesToSecondPole | main.ts:186-191 | with equal numbers the primary label reads as the second pole (Extrovert, Negative, Uncertain, Thinking) and the secondary as the first |
| Bipolar.RecoverDominance | main.ts:186-209 | reading the two labels back gives the original pair: no number is lost or swapped |
| Bipolar.Label | main.ts:187-209 | a label is the pole name, a space, then the number and a closing `%`; `Bipolar.ReadLabelOfLabel` shows nothing else follows |
| Bipolar.ReadLabelOfLabel | main.ts:187-188 | a label `"<Pole> <n>%"` reads back as its pole and its number |
| Decimal.ParseIntToString | main.ts:187 | the decimal spelling of a percentage reads back as the same integer |
| Decimal.NatToString | main.ts:187 | the spelling of a natural number is a non-empty string of decimal digits with no leading zero (it starts with `0` only for zero itself) |
| Decimal.IntToString | main.ts:187 | the spelling of a percentage starts with `-` exactly when it is negative, has only digits after that, and has no leading zero |
| View.ViewHtml | main.ts:49-106 | the placeholder is the constant text whatever the slots are, and it never reads as an analysis; a filled panel holds all fourteen fixed pieces and all thirteen slot values verbatim, each at its own offset, in slot order; it reads back as exactly its slot values whenever they contain no `<` |
| View.ReadFill | main.ts:67-106 | when no argument contains `<`, filling the template and then reading it gives back every argument, in order |
| View.UnanalysedIsNoView | main.ts:65-66 | the "Analysis not done yet" placeholder is not a filled template |
| View.FillLayout | main.ts:67-106 | a filled template is exactly piece 0, argument 0, piece 1, ..., the last piece: each verbatim at the offset given by the lengths before it, and nothing more |
| Interpreter.ReplySlots | main.ts:183-213 | keys 1, 2, 7, 8 and 9 pass unchanged into the feeling, thinking, time, sense and person slots; each pair's two slots hold that pair's primary and secondary label, in that order, with the view's pole names |
| Interpreter.ReplySlotsDescribe | main.ts:186-209 | every pair of slots meets the labelling promise of `Bipolar.DominanceDescribes`: both poles once, each with its own number, the larger number in bold, the second pole on a tie |
| Interpreter.RecoverReplySlots | main.ts:183-213 | all nine reply values can be recovered from the thirteen slots |
| Interpreter.ActivateView | main.ts:181-217 | an unparsable reply shows the error notice and only then; a parsed reply fills the panel with its thirteen slot values verbatim in slot order, and when its categories contain no `<` the panel reads back as that reply |
| Interpreter.SlotsHaveNoMarkup | main.ts:183-213 | the generated labels never contain `<`, so when the categories contain none every slot stays delimited in the panel |
| Prompt.Words | main.ts:264 | the words contain no space, and joining them with a space gives back the note: no word is dropped, changed or reordered |
| Prompt.WordCount | main.ts:240 | the word count is the number of spaces plus one, so an empty note is one word |
| Prompt.UserMessage | main.ts:264 | the user message is the instruction text, then `[`, then the note with every space replaced by `, `, then `]` |
| Strings.Split | main.ts:240 | a split yields at least one part, and no part contains the separator |
| Strings.Drop | main.ts:281 | `substring(n)` keeps the last `length - n` characters, or none when `n` is past the end |
| Strings.SplitLength | main.ts:240 | a split yields one more part than there are separators |
| Strings.JoinSplit | main.ts:264 | joining the split parts with a glue string is the same as replacing each separator by that glue |
| Strings.SplitLossless | main.ts:264 | joining the split parts with the separator gives back the original string |
| Strings.SplitHead | main.ts:281 | the first part of a split is the prefix up to the first separator, or the whole string |
| Analyst.Authorize | main.ts:221-233 | the run may proceed exactly when the OpenAI key is set, or the licence key is set and verified; it stops with the missing-credentials notice exactly when both keys are empty; it stops with the invalid-licence notice exactly when only the licence key is set and it did not verify; when it proceeds, the licensed mode is chosen exactly when the licence verified |
| Analyst.BuildRequest | main.ts:244-268 | the request goes to the mode's endpoint with the mode's key as bearer, asks for gpt-4 with the fixed system message, and carries the user message with every space of the note turned into `, ` |
| Analyst.ExtractReply | main.ts:276-278 | the licensed mode reads only `response`; the direct mode reads only `choices[0].message.content`, and it has a reply exactly when `choices[0].message` can be read and its content is a string |
| Analyst.Summary | main.ts:281 | the summary has no newline and is no longer than the reply; `Analyst.SummaryIsFirstLineTail` gives it exactly |
| Analyst.SummaryIsFirstLineTail | main.ts:281 | the summary has no newline; it is the reply's text from offset 3 up to the first newline or the end; it is empty exactly when the first line has at most three characters |
| Analyst.Exchange | main.ts:244-281 | every outcome records the request as sent; the run fails (error notice) exactly on a non-ok status; it completes exactly when the body holds the mode's reply, with the summary of that reply and, when `view` is set, the panel update made from it; otherwise it throws, and the parse-error notice is shown exactly when `view` is set and the field's value reached `activateView` (always for the proxy; for OpenAI when `choices[0].message` could be read) |
| Analyst.Analyse | main.ts:220-285 | a failed credential gate ends the run with its notice; after it, the run stops with the too-few-words notice exactly when the note has fewer than 100 words; a sent request is the one built for the chosen mode and the note |
| Analyst.Returns | main.ts:220-285 | the promise rejects exactly when reading the reply field threw; it resolves to `undefined` exactly after the invalid-licence notice; a completed run resolves to its summary; every other early end resolves to `""` |
| AnalystProperties.SendsOnlyWhenAllowed | main.ts:221-243 | a request is sent exactly when a usable credential exists and the note has at least 100 words (spaces plus one) |
| AnalystProperties.NoKeysNoRequest | main.ts:221-226 | with both keys empty the run stops with the missing-credentials notice and resolves to "" whatever else holds |
| AnalystProperties.InvalidLicenseNoRequest | main.ts:228-233 | with no OpenAI key and an unverified licence the run stops with the invalid-licence notice and resolves to `undefined` |
| AnalystProperties.NoEditorTooShort | main.ts:235-242 | with no active editor the note is empty, which is one word, so a run that passes the credential gate stops with the too-few-words notice |
| AnalystProperties.RequestFollowsMode | main.ts:244-264 | a sent request uses the proxy and the licence key when the licence verified, even if an OpenAI key is set; otherwise it uses OpenAI and the OpenAI key; it carries every word of the note, in order |
| AnalystProperties.EnvelopeIsolation | main.ts:276-278 | with a verified licence the run does not depend on `choices`, and without one it does not depend on `response` |
| AnalystProperties.DeliveredSummary | main.ts:276-281 | once both gates pass and the body has the mode's field, the run resolves to the summary of the reply read from that field |
| AnalystProperties.DeliveredView | main.ts:276-279 | under the same conditions the panel is updated from that reply exactly when `view` is set |
| AnalystProperties.TransportFailure | main.ts:270-274 | after both gates a non-ok status means the mode's request was sent, the error notice shown, and `analyse` resolves to `""` |
| AnalystProperties.MissingReplyField | main.ts:276-281 | after both gates a body without the mode's reply makes the promise reject; with `view` set the parse-error notice is shown for the proxy, and for OpenAI exactly when `choices[0].message` could be read; a null first choice or one without `message` throws before `activateView` |
| AnalystProperties.UndecodableBody | main.ts:276-278 | after both gates a body that is not JSON, or is `null`, makes the promise reject without touching the panel |
| AnalystProperties.SampleReply | main.ts:183-213 | for the sample reply in the instruction text (main.ts:19-30), the slots are "Extrovert 60%"/"Introvert 40%", "Negative 79%"/"Positive 21%", "Uncertain 54%"/"Certain 46%", "Thinking 90%"/"Feeling 10%", and the categories pass through |

## Left out

- Plugin lifecycle, view registration, the `active-leaf-change` handler, the command and the status-bar DOM (main.ts:124-147, 167-180, 349-374): these are calls into the host application.
- Settings tab and persistence (main.ts:291-346): user-interface and storage code. `Settings` is taken as a plain value.
- `checkLicense` (main.ts:149-165) and both `fetch` calls: network input and output. The licence answer is the `licenseValid` parameter and the HTTP answer is the `Http` parameter.
- `JSON.parse` and the reply's dynamic typing (main.ts:182): a foreign library. The parse, together with the indexing that `activateView` does, is the `parse` parameter. In particular, a key that is missing or has the wrong type is folded into `None`. In the source, a missing category key renders as the text "undefined", and a pair of strings is compared as strings, not as numbers.
- JavaScript number formatting: percentages are integers written in decimal with a leading `-` when negative. Fractions, exponents, `NaN` and `-0` are not modelled.
- Strings are sequences of Dafny characters. JavaScript's UTF-16 code units, which `substring(3)` counts, are not modelled.
- Analyst.Analyse: when the body does not decode or lacks the mode's reply, the run is the `Threw` outcome. The source's unhandled promise rejection and its stack are not modelled further.
- Analyst.ExtractReply: an envelope field that is present but not a string is folded into `None`, like a missing one, and is taken to make `activateView` show its error notice. In the source such a value is passed to `JSON.parse` as is, and a few values (an array holding JSON text, say) could parse.
- View.ViewHtml, View.ReadFill, Interpreter.ActivateView: reading the slots back is promised only when no slot value contains `<`. A slot value is placed into the template unchanged and set through `innerHTML` (main.ts:183), so a `<` in it becomes markup and the end of the slot cannot be told from the template's own tags. The layout clauses (`View.FillLayout`) still hold for every value.
- Analyst.Exchange, AnalystProperties.MissingReplyField: a run records which notices it shows, not when. The parse-error notice precedes the rejection only when an analysis panel is already open; otherwise `activateView` first awaits `setViewState` (main.ts:178), and the rejection at main.ts:281 comes first.
- Concurrent runs started by overlapping `active-leaf-change` events (main.ts:128-134): concurrency, whose ordering is undefined in the source.

=== FILE: analyst.dfy ===
/** One run of `analyse`: the credential gate, the choice between the
    licensed proxy and a direct OpenAI key, the word-count gate, the request,
    the reply envelope, the panel update and the status-bar summary.
    The licence check, the HTTP exchange and JSON parsing are collaborators,
    so their answers come in as parameters. */
module Analyst {
  import opened Wrappers
  import opened Strings
  import opened Prompt
  import opened Interpreter

  /** The stored plugin settings; an empty string means "not set". */
  datatype Settings = Settings(openaiKey: string, licenseKey: string)

  /** The two ways of reaching the model, each with its endpoint and reply envelope. */
  datatype Mode = Licensed | DirectKey
  {
    function Endpoint(): string
    {
      match this
      case Licensed => "https://analyst-1-s7586344.deta.app/gpt"
      case DirectKey => "https://api.openai.com/v1/chat/completions"
    }
  }

  /** The user notices that end a run early. */
  datatype Notice =
    | MissingCredentials   // neither key is set
    | InvalidLicense       // no OpenAI key, and the licence did not verify
    | InsufficientContent  // fewer than 100 words

  /** What `analyse` resolves to: a string, or `undefined` after a bare `return`. */
  datatype Returned = Text(text: string) | Undefined

  /** The POST sent to the endpoint. */
  datatype Request = Request(
    endpoint: string,
    bearer: string,
    model: string,
    systemMessage: string,
    userMessage: string)

  /** The decoded JSON body of a successful response: the licensed proxy puts
      the reply in `response`; OpenAI puts it in `choices[0].message.content`.
      `response` is `None` when it is absent, null or not a string.
      `firstMessage` is `None` when `choices[0].message` cannot be read (no
      `choices`, no first choice, or a first choice that is null or has no
      `message`), `Some(None)` when the message's `content` is absent, null or
      not a string, and `Some(Some(text))` otherwise. */
  datatype Body = Body(response: Option<string>, firstMessage: Option<Option<string>>)

  /** The endpoint's answer: `res.ok` false; a body that `res.json()` cannot
      decode, or that decodes to `null` so that reading any field of it
      throws; or the decoded body. */
  datatype Http = NotOk | Undecodable | Delivered(body: Body)

  datatype Run =
    | Refused(notice: Notice)
      // no request was sent
    | Failed(request: Request)
      // the request was sent, the status was not ok, and the error notice was shown
    | Threw(request: Request, view: Option<ViewUpdate>)
      // decoding the body, or using the mode's reply field, threw
    | Completed(request: Request, view: Option<ViewUpdate>, summary: string)

  /** The two gates before the licence result is used, and the mode after them. */
  function Authorize(settings: Settings, licenseValid: bool): (r: Result<Mode, Notice>)
    ensures r.Ok? <==> settings.openaiKey != "" || (settings.licenseKey != "" && licenseValid)
    ensures r == Err(MissingCredentials) <==> settings.openaiKey == "" && settings.licenseKey == ""
    ensures r == Err(InvalidLicense)
        <==> settings.openaiKey == "" && settings.licenseKey != "" && !licenseValid
    ensures r.Ok? ==> (r.value == Licensed <==> licenseValid)
  {
    if settings.licenseKey == "" && settings.openaiKey == "" then Err(MissingCredentials)
    else if settings.openaiKey == "" && !licenseValid then Err(InvalidLicense)
    else if licenseValid then Ok(Licensed)
    else Ok(DirectKey)
  }

  /** The request a mode sends for a note: the licence key authorizes the
      proxy, the OpenAI key authorizes OpenAI. */
  function BuildRequest(settings: Settings, mode: Mode, contents: string): (req: Request)
    ensures req.endpoint == mode.Endpoint()
    ensures req.bearer == if mode.Licensed? then settings.licenseKey else settings.openaiKey
    ensures req.model == ModelName && req.systemMessage == SystemMessage
    ensures req.userMessage == Instructions + "[" + Replace(contents, ' ', ", ") + "]"
  {
    Request(
      mode.Endpoint(),
      match mode case Licensed => settings.licenseKey case DirectKey => settings.openaiKey,
      ModelName,
      SystemMessage,
      UserMessage(contents))
  }

  /** Reads the model's reply out of the envelope of the given mode; `None`
      when the field that mode reads is missing. Each mode looks only at its own field. */
  function ExtractReply(mode: Mode, body: Body): (reply: Option<string>)
    ensures mode.Licensed? ==> reply == body.response
    ensures mode.DirectKey? ==> (reply.Some? <==> body.firstMessage.Some? && body.firstMessage.value.Some?)
    ensures mode.DirectKey? && reply.Some? ==> Some(reply.value) == body.firstMessage.value
  {
    match mode
    case Licensed => body.response
    case DirectKey => if body.firstMessage.Some? then body.firstMessage.value else None
  }

  /** Whether the value of the mode's field reaches `activateView`: always for
      the proxy, and for OpenAI only when `choices[0].message` can be read,
      since reading it otherwise throws before the call. */
  function ReachesView(mode: Mode, body: Body): (reaches: bool)
    ensures reaches <==> mode.Licensed? || body.firstMessage.Some?
  {
    match mode
    case Licensed => true
    case DirectKey => body.firstMessage.Some?
  }

  /** The status-bar summary: the reply's first line without its first three
      characters (`split("\n")[0].substring(3)`). */
  function Summary(reply: string): (s: string)
    ensures '\n' !in s
    ensures |s| <= |reply|
  {
    SplitHead(reply, '\n');
    Drop(Split(reply, '\n')[0], 3)
  }

  /** The summary is the text from offset 3 up to the first newline (or the
      end), and it is empty exactly when the first line has at most three characters. */
  lemma SummaryIsFirstLineTail(reply: string)
    ensures var s := Summary(reply);
      && '\n' !in s
      && (s != "" ==> 3 + |s| <= |reply| && reply[3..3 + |s|] == s)
      && (s != "" ==> 3 + |s| == |reply| || reply[3 + |s|] == '\n')
      && (s == "" <==> |reply| <= 3 || '\n' in reply[..4])
  {
    var line := Split(reply, '\n')[0];
    SplitHead(reply, '\n');
    assert line == reply[..|line|];
    assert |line| > 3 ==> Summary(reply) == line[3..];
  }

  /** What happens once a request is sent: a non-ok status, a missing reply
      field, or the reply shown in the panel and summarized for the status bar. */
  function Exchange(request: Request, mode: Mode, http: Http, parse: string -> Option<Reply>, view: bool): (run: Run)
    ensures Sent(run) == Some(request)
    ensures run.Failed? <==> http.NotOk?
    ensures run.Completed? <==> http.Delivered? && ExtractReply(mode, http.body).Some?
    ensures run.Completed? ==> var reply := ExtractReply(mode, http.body).value;
      && run.summary == Summary(reply)
      && run.view == if view then Some(ActivateView(parse(reply))) else None
    ensures run.Threw? ==>
      run.view == if view && http.Delivered? && ReachesView(mode, http.body) then Some(ErrorNotice) else None
  {
    match http
    case NotOk => Failed(request)
    case Undecodable => Threw(request, None)
    case Delivered(body) =>
      match ExtractReply(mode, body)
      case None =>
        // a missing or non-string reply that reaches `activateView` makes its parse fail
        Threw(request, if view && ReachesView(mode, body) then Some(ErrorNotice) else None)
      case Some(reply) =>
        Completed(request, if view then Some(ActivateView(parse(reply))) else None, Summary(reply))
  }

  /** One run of `analyse`. `editorText` is the active editor's text, if any;
      `licenseValid` is what the licence check answered; `http` is the
      endpoint's answer; `parse` stands for `JSON.parse` followed by the
      indexing `activateView` does; `view` says whether the panel is updated. */
  function Analyse(
    settings: Settings,
    licenseValid: bool,
    editorText: Option<string>,
    http: Http,
    parse: string -> Option<Reply>,
    view: bool): (run: Run)
    ensures Authorize(settings, licenseValid).Err? ==> run == Refused(Authorize(settings, licenseValid).error)
    ensures Authorize(settings, licenseValid).Ok? ==>
      (run == Refused(InsufficientContent) <==> !HasEnoughWords(editorText.GetOr("")))
    ensures Sent(run).Some? ==> && Authorize(settings, licenseValid).Ok?
                                && Sent(run).value == BuildRequest(settings, Authorize(settings, licenseValid).value, editorText.GetOr(""))
  {
    match Authorize(settings, licenseValid)
    case Err(notice) => Refused(notice)
    case Ok(mode) =>
      var contents := editorText.GetOr("");
      if !HasEnoughWords(contents) then Refused(InsufficientContent)
      else Exchange(BuildRequest(settings, mode, contents), mode, http, parse, view)
  }

  /** The request a run sent, if any. */
  function Sent(run: Run): Option<Request>
  {
    match run
    case Refused(_) => None
    case Failed(request) => Some(request)
    case Threw(request, _) => Some(request)
    case Completed(request, _, _) => Some(request)
  }

  /** What the promise returned by `analyse` resolves to; `None` when it rejects. */
  function Returns(run: Run): (r: Option<Returned>)
    ensures r.None? <==> run.Threw?
    ensures r == Some(Undefined) <==> run == Refused(InvalidLicense)
    ensures run.Completed? ==> r == Some(Text(run.summary))
    ensures (run.Refused? || run.Failed?) && run != Refused(InvalidLicense) ==> r == Some(Text(""))
  {
    match run
    case Refused(InvalidLicense) => Some(Undefined)
    case Refused(_) => Some(Text(""))
    case Failed(_) => Some(Text(""))
    case Threw(_, _) => None
    case Completed(_, _, summary) => Some(Text(summary))
  }
}

/** Properties of whole runs of `analyse`. */
module AnalystProperties {
  import opened Wrappers
  import opened Strings
  import opened Decimal
  import opened Bipolar
  import opened View
  import opened Prompt
  import opened Interpreter
  import opened Analyst

  /** A request goes out exactly when some credential can be used and the
      note has at least 100 words; a missing editor counts as an empty note. */
  lemma SendsOnlyWhenAllowed(
    settings: Settings, licenseValid: bool, editorText: Option<string>,
    http: Http, parse: string -> Option<Reply>, view: bool)
    ensures Sent(Analyse(settings, licenseValid, editorText, http, parse, view)).Some?
        <==> && (settings.openaiKey != "" || (settings.licenseKey != "" && licenseValid))
             && Count(editorText.GetOr(""), ' ') + 1 >= MinWords
  {
    var contents := editorText.GetOr("");
    assert WordCount(contents) == Count(contents, ' ') + 1;
  }

  /** Without either key nothing is sent and `analyse` resolves to "". */
  lemma NoKeysNoRequest(
    settings: Settings, licenseValid: bool, editorText: Option<string>,
    http: Http, parse: string -> Option<Reply>, view: bool)
    requires settings.openaiKey == "" && settings.licenseKey == ""
    ensures Analyse(settings, licenseValid, editorText, http, parse, view) == Refused(MissingCredentials)
    ensures Returns(Analyse(settings, licenseValid, editorText, http, parse, view)) == Some(Text(""))
  {
  }

  /** A licence that does not verify, with no OpenAI key to fall back on,
      stops the run with `undefined`. */
  lemma InvalidLicenseNoRequest(
    settings: Settings, editorText: Option<string>,
    http: Http, parse: string -> Option<Reply>, view: bool)
    requires settings.openaiKey == "" && settings.licenseKey != ""
    ensures Analyse(settings, false, editorText, http, parse, view) == Refused(InvalidLicense)
    ensures Returns(Analyse(settings, false, editorText, http, parse, view)) == Some(Undefined)
  {
  }

  /** With no active editor the note is empty, which is one word: too short. */
  lemma NoEditorTooShort(
    settings: Settings, licenseValid: bool,
    http: Http, parse: string -> Option<Reply>, view: bool)
    requires settings.openaiKey != "" || (settings.licenseKey != "" && licenseValid)
    ensures Analyse(settings, licenseValid, None, http, parse, view) == Refused(InsufficientContent)
  {
    assert WordCount("") == 1;
  }

  /** A valid licence always selects the proxy with the licence key, even when
      an OpenAI key is set; otherwise OpenAI is called with the OpenAI key.
      The note's words are all sent, in order. */
  lemma RequestFollowsMode(
    settings: Settings, licenseValid: bool, editorText: Option<string>,
    http: Http, parse: string -> Option<Reply>, view: bool)
    requires Sent(Analyse(settings, licenseValid, editorText, http, parse, view)).Some?
    ensures var req := Sent(Analyse(settings, licenseValid, editorText, http, parse, view)).value;
      && req.endpoint == (if licenseValid then Licensed else DirectKey).Endpoint()
      && req.bearer == (if licenseValid then settings.licenseKey else settings.openaiKey)
      && req.userMessage == Instructions + "[" + Join(", ", Words(editorText.GetOr(""))) + "]"
      && Join(" ", Words(editorText.GetOr(""))) == editorText.GetOr("")
  {
    var contents := editorText.GetOr("");
    var mode := Authorize(settings, licenseValid).value;
    JoinSplit(contents, ' ', ", ");
    assert Sent(Analyse(settings, licenseValid, editorText, http, parse, view))
        == Some(BuildRequest(settings, mode, contents));
  }

  /** Each mode reads only its own envelope field: with a valid licence the
      `choices` are irrelevant, without one the `response` is. */
  lemma EnvelopeIsolation(
    settings: Settings, licenseValid: bool, editorText: Option<string>,
    response1: Option<string>, first1: Option<Option<string>>,
    response2: Option<string>, first2: Option<Option<string>>,
    parse: string -> Option<Reply>, view: bool)
    requires if licenseValid then response1 == response2 else first1 == first2
    ensures Analyse(settings, licenseValid, editorText, Delivered(Body(response1, first1)), parse, view)
         == Analyse(settings, licenseValid, editorText, Delivered(Body(response2, first2)), parse, view)
  {
    var mode := if licenseValid then Licensed else DirectKey;
    var body1 := Body(response1, first1);
    var body2 := Body(response2, first2);
    if Authorize(settings, licenseValid).Ok? && HasEnoughWords(editorText.GetOr("")) {
      ProceedsToExchange(settings, licenseValid, editorText, Delivered(body1), parse, view);
      ProceedsToExchange(settings, licenseValid, editorText, Delivered(body2), parse, view);
      assert ExtractReply(mode, body1) == ExtractReply(mode, body2);
      assert ReachesView(mode, body1) == ReachesView(mode, body2);
    }
  }

  /** Once both gates pass, the run is the exchange of the mode's request. */
  lemma ProceedsToExchange(
    settings: Settings, licenseValid: bool, editorText: Option<string>,
    http: Http, parse: string -> Option<Reply>, view: bool)
    requires settings.openaiKey != "" || (settings.licenseKey != "" && licenseValid)
    requires HasEnoughWords(editorText.GetOr(""))
    ensures var mode := if licenseValid then Licensed else DirectKey;
      Analyse(settings, licenseValid, editorText, http, parse, view)
        == Exchange(BuildRequest(settings, mode, editorText.GetOr("")), mode, http, parse, view)
  {
    assert Authorize(settings, licenseValid) == Ok(if licenseValid then Licensed else DirectKey);
  }

  /** When both gates pass and the body has the mode's reply field, the run
      resolves to the summary of that reply. */
  lemma DeliveredSummary(
    settings: Settings, licenseValid: bool, editorText: Option<string>,
    body: Body, parse: string -> Option<Reply>, view: bool)
    requires settings.openaiKey != "" || (settings.licenseKey != "" && licenseValid)
    requires HasEnoughWords(editorText.GetOr(""))
    requires if licenseValid then body.response.Some? else body.firstMessage.Some? && body.firstMessage.value.Some?
    ensures var reply := if licenseValid then body.response.value else body.firstMessage.value.value;
      Returns(Analyse(settings, licenseValid, editorText, Delivered(body), parse, view)) == Some(Text(Summary(reply)))
  {
    var mode := if licenseValid then Licensed else DirectKey;
    ProceedsToExchange(settings, licenseValid, editorText, Delivered(body), parse, view);
    assert ExtractReply(mode, body) == Some(if licenseValid then body.response.value else body.firstMessage.value.value);
  }

  /** Under the same conditions, with `view` set the panel is updated from that
      reply, and without it the panel is left alone. */
  lemma DeliveredView(
    settings: Settings, licenseValid: bool, editorText: Option<string>,
    body: Body, parse: string -> Option<Reply>, view: bool)
    requires settings.openaiKey != "" || (settings.licenseKey != "" && licenseValid)
    requires HasEnoughWords(editorText.GetOr(""))
    requires if licenseValid then body.response.Some? else body.firstMessage.Some? && body.firstMessage.value.Some?
    ensures var reply := if licenseValid then body.response.value else body.firstMessage.value.value;
      Analyse(settings, licenseValid, editorText, Delivered(body), parse, view).view
        == if view then Some(ActivateView(parse(reply))) else None
  {
    var mode := if licenseValid then Licensed else DirectKey;
    ProceedsToExchange(settings, licenseValid, editorText, Delivered(body), parse, view);
    assert ExtractReply(mode, body) == Some(if licenseValid then body.response.value else body.firstMessage.value.value);
  }

  /** A non-ok status after both gates: the request was sent, the error notice
      is shown and `analyse` resolves to "". */
  lemma TransportFailure(
    settings: Settings, licenseValid: bool, editorText: Option<string>,
    parse: string -> Option<Reply>, view: bool)
    requires settings.openaiKey != "" || (settings.licenseKey != "" && licenseValid)
    requires HasEnoughWords(editorText.GetOr(""))
    ensures var mode := if licenseValid then Licensed else DirectKey;
      Analyse(settings, licenseValid, editorText, NotOk, parse, view)
        == Failed(BuildRequest(settings, mode, editorText.GetOr("")))
    ensures Returns(Analyse(settings, licenseValid, editorText, NotOk, parse, view)) == Some(Text(""))
  {
    ProceedsToExchange(settings, licenseValid, editorText, NotOk, parse, view);
  }

  /** A body without a usable reply field after both gates: the promise
      rejects, and with `view` set the parse-error notice is shown when the
      field's value reaches `activateView` (always for the proxy, and for
      OpenAI when `choices[0].message` can be read). */
  lemma MissingReplyField(
    settings: Settings, licenseValid: bool, editorText: Option<string>,
    body: Body, parse: string -> Option<Reply>, view: bool)
    requires settings.openaiKey != "" || (settings.licenseKey != "" && licenseValid)
    requires HasEnoughWords(editorText.GetOr(""))
    requires if licenseValid then body.response.None? else body.firstMessage.None? || body.firstMessage.value.None?
    ensures Returns(Analyse(settings, licenseValid, editorText, Delivered(body), parse, view)) == None
    ensures Analyse(settings, licenseValid, editorText, Delivered(body), parse, view).view
         == if view && (licenseValid || body.firstMessage.Some?) then Some(ErrorNotice) else None
  {
    var mode := if licenseValid then Licensed else DirectKey;
    ProceedsToExchange(settings, licenseValid, editorText, Delivered(body), parse, view);
    assert ExtractReply(mode, body).None?;
  }

  /** A body that does not decode after both gates: the promise rejects before
      the panel is touched. */
  lemma UndecodableBody(
    settings: Settings, licenseValid: bool, editorText: Option<string>,
    parse: string -> Option<Reply>, view: bool)
    requires settings.openaiKey != "" || (settings.licenseKey != "" && licenseValid)
    requires HasEnoughWords(editorText.GetOr(""))
    ensures Returns(Analyse(settings, licenseValid, editorText, Undecodable, parse, view)) == None
    ensures Analyse(settings, licenseValid, editorText, Undecodable, parse, view).view == None
  {
    ProceedsToExchange(settings, licenseValid, editorText, Undecodable, parse, view);
  }

  /** The sample reply of the prompt: every pair's second number is larger,
      so every second pole is primary; the categories pass through. */
  lemma SampleReply()
    ensures ReplySlots(Reply("Joy", "Work", Pair(40, 60), Pair(21, 79), Pair(46, 54), Pair(10, 90),
                             "Present", "Sight", "I"))
         == Slots("Joy", "Work",
                  "Extrovert 60%", "Introvert 40%",
                  "Negative 79%", "Positive 21%",
                  "Uncertain 54%", "Certain 46%",
                  "Thinking 90%", "Feeling 10%",
                  "Present", "Sight", "I")
  {
    assert IntToString(60) == "60" && IntToString(40) == "40";
    assert IntToString(79) == "79" && IntToString(21) == "21";
    assert IntToString(54) == "54" && IntToString(46) == "46";
    assert IntToString(90) == "90" && IntToString(10) == "10";
    assert Dominance(IntrovertExtrovert, Pair(40, 60)) == LabelPair("Extrovert 60%", "Introvert 40%");
    assert Dominance(PositiveNegative, Pair(21, 79)) == LabelPair("Negative 79%", "Positive 21%");
    assert Dominance(CertainUncertain, Pair(46, 54)) == LabelPair("Uncertain 54%", "Certain 46%");
    assert Dominance(FeelingThinking, Pair(10, 90)) == LabelPair("Thinking 90%", "Feeling 10%");
  }
}

=== FILE: bipolar.dfy ===
/** Labelling of the four percentage pairs of an analysis (keys 3 to 6 of the
    reply): the dominant pole goes in bold, the other one after the slash. */
module Bipolar {
  import opened Wrappers
  import opened Strings
  import opened Decimal

  /** The two pole names of a characteristic, in the order of the reply's pair. */
  datatype Poles = Poles(first: string, second: string)

  /** The two percentages the model returned, `[first, second]`. */
  datatype Pair = Pair(first: int, second: int)

  /** The bold (primary) label and the label after the slash (secondary). */
  datatype LabelPair = LabelPair(primary: string, secondary: string)

  /** What a label says: a pole and the percentage shown next to it. */
  datatype Reading = Reading(pole: string, value: int)

  const IntrovertExtrovert := Poles("Introvert", "Extrovert")
  const PositiveNegative := Poles("Positive", "Negative")
  /** The reply's first number is labelled "Certain" although the prompt lists
      the characteristic as "Uncertain / Certain"; the labels follow the view code. */
  const CertainUncertain := Poles("Certain", "Uncertain")
  const FeelingThinking := Poles("Feeling", "Thinking")

  /** Two distinct pole names, neither containing a space (so a label can be
      read back) nor a `<` (so a label stays inside its slot of the view). */
  predicate ValidPoles(poles: Poles)
  {
    && poles.first != poles.second
    && ' ' !in poles.first && '<' !in poles.first
    && ' ' !in poles.second && '<' !in poles.second
  }

  // Each of the four view pole pairs is valid.
  lemma IntrovertExtrovertValid()
    ensures ValidPoles(IntrovertExtrovert)
  {
  }

  lemma PositiveNegativeValid()
    ensures ValidPoles(PositiveNegative)
  {
  }

  lemma CertainUncertainValid()
    ensures ValidPoles(CertainUncertain)
  {
  }

  lemma FeelingThinkingValid()
    ensures ValidPoles(FeelingThinking)
  {
  }

  /** The view's four pole pairs are valid. */
  lemma StandardPoles()
    ensures ValidPoles(IntrovertExtrovert) && ValidPoles(PositiveNegative)
    ensures ValidPoles(CertainUncertain) && ValidPoles(FeelingThinking)
  {
    IntrovertExtrovertValid();
    PositiveNegativeValid();
    CertainUncertainValid();
    FeelingThinkingValid();
  }

  /** `"<Pole> <n>%"`. */
  function Label(pole: string, value: int): (s: string)
    ensures |s| >= |pole| + 3
    ensures s[..|pole|] == pole && s[|pole|] == ' ' && s[|s| - 1] == '%'
  {
    pole + " " + IntToString(value) + "%"
  }

  /** Reads a label back into its pole and percentage; accepts only the
      spelling `Label` produces. */
  function ReadLabel(s: string): (r: Option<Reading>)
    ensures r.Some? ==> Label(r.value.pole, r.value.value) == s
  {
    var parts := Split(s, ' ');
    if |parts| != 2 then None
    else
      var number := parts[1];
      if |number| == 0 || number[|number| - 1] != '%' then None
      else
        match ParseInt(number[..|number| - 1])
        case None => None
        case Some(v) => if Label(parts[0], v) == s then Some(Reading(parts[0], v)) else None
  }

  /** The percentage the pair binds to `pole`. */
  function ValueOf(poles: Poles, pair: Pair, pole: string): int
  {
    if pole == poles.first then pair.first else pair.second
  }

  /** The labelling the view promises, stated on what the labels read as:
      both poles appear once each, each with its own number, the primary
      number is at least the secondary one, and on a tie the second pole
      is primary. */
  predicate Describes(poles: Poles, pair: Pair, labels: LabelPair)
  {
    match (ReadLabel(labels.primary), ReadLabel(labels.secondary))
    case (Some(p), Some(q)) =>
      && {p.pole, q.pole} == {poles.first, poles.second}
      && p.pole != q.pole
      && p.value == ValueOf(poles, pair, p.pole)
      && q.value == ValueOf(poles, pair, q.pole)
      && p.value >= q.value
      && (p.value == q.value ==> p.pole == poles.second)
    case _ => false
  }

  /** The choice the view makes for one pair: the first pole is primary only
      when its number is strictly greater. */
  function Dominance(poles: Poles, pair: Pair): (labels: LabelPair)
    ensures {labels.primary, labels.secondary}
         == {Label(poles.first, pair.first), Label(poles.second, pair.second)}
  {
    if pair.first > pair.second then
      LabelPair(Label(poles.first, pair.first), Label(poles.second, pair.second))
    else
      LabelPair(Label(poles.second, pair.second), Label(poles.first, pair.first))
  }

  lemma NumberPartIsPlain(value: int)
    ensures ' ' !in IntToString(value) + "%"
    ensures '<' !in IntToString(value) + "%"
  {
    var d := IntToString(value) + "%";
    forall i | 0 <= i < |d|
      ensures d[i] != ' ' && d[i] != '<'
    {
      if i < |d| - 1 {
        assert d[i] == IntToString(value)[i];
      }
    }
  }

  /** A label reads back as the pole and number it was made from. */
  lemma ReadLabelOfLabel(pole: string, value: int)
    requires ' ' !in pole
    ensures ReadLabel(Label(pole, value)) == Some(Reading(pole, value))
  {
    var number := IntToString(value) + "%";
    NumberPartIsPlain(value);
    assert Label(pole, value) == pole + [' '] + number;
    SplitAt(pole, number, ' ');
    SplitWithout(number, ' ');
    assert number[..|number| - 1] == IntToString(value);
    ParseIntToString(value);
  }

  /** Labels carry no markup when the pole name carries none. */
  lemma LabelHasNoMarkup(pole: string, value: int)
    requires '<' !in pole
    ensures '<' !in Label(pole, value)
  {
    NumberPartIsPlain(value);
    assert Label(pole, value) == pole + " " + (IntToString(value) + "%");
  }

  /** Neither label of a pair contains `<`. */
  lemma DominanceHasNoMarkup(poles: Poles, pair: Pair)
    requires ValidPoles(poles)
    ensures '<' !in Dominance(poles, pair).primary && '<' !in Dominance(poles, pair).secondary
  {
    LabelHasNoMarkup(poles.first, pair.first);
    LabelHasNoMarkup(poles.second, pair.second);
  }

  /** The view's choice meets the promise, and it is the only labelling that does. */
  lemma DominanceDescribes(poles: Poles, pair: Pair, labels: LabelPair)
    requires ValidPoles(poles)
    ensures Describes(poles, pair, labels) <==> labels == Dominance(poles, pair)
  {
    ReadLabelOfLabel(poles.first, pair.first);
    ReadLabelOfLabel(poles.second, pair.second);
  }

  /** On a tie the second pole is primary, because the view tests with a strict `>`. */
  lemma TieGoesToSecondPole(poles: Poles, value: int)
    requires ValidPoles(poles)
    ensures ReadLabel(Dominance(poles, Pair(value, value)).primary) == Some(Reading(poles.second, value))
    ensures ReadLabel(Dominance(poles, Pair(value, value)).secondary) == Some(Reading(poles.first, value))
  {
    ReadLabelOfLabel(poles.first, value);
    ReadLabelOfLabel(poles.second, value);
  }

  /** Reads a primary/secondary label pair back into the pair it was made from. */
  function RecoverPair(poles: Poles, labels: LabelPair): Option<Pair>
  {
    match (ReadLabel(labels.primary), ReadLabel(labels.secondary))
    case (Some(p), Some(q)) =>
      if p.pole == poles.first && q.pole == poles.second then Some(Pair(p.value, q.value))
      else if p.pole == poles.second && q.pole == poles.first then Some(Pair(q.value, p.value))
      else None
    case _ => None
  }

  /** No number is lost or swapped: the labels give back the pair. */
  lemma RecoverDominance(poles: Poles, pair: Pair)
    requires ValidPoles(poles)
    ensures RecoverPair(poles, Dominance(poles, pair)) == Some(pair)
  {
    ReadLabelOfLabel(poles.first, pair.first);
    ReadLabelOfLabel(poles.second, pair.second);
  }
}

=== FILE: decimal.dfy ===
/** Decimal rendering of the integer percentages, as JavaScript's `"" + n`
    produces it for integral numbers, and the matching reader. */
module Decimal {
  import opened Wrappers

  predicate IsDigit(c: char)
  {
    '0' <= c <= '9'
  }

  function Digit(d: nat): (c: char)
    requires d < 10
    ensures IsDigit(c)
  {
    (48 + d) as char
  }

  function DigitValue(c: char): (d: nat)
    requires IsDigit(c)
    ensures d < 10 && Digit(d) == c
  {
    c as int - 48
  }

  /** Shortest decimal spelling of `n`, most significant digit first. */
  function NatToString(n: nat): (s: string)
    ensures |s| >= 1
    ensures forall i :: 0 <= i < |s| ==> IsDigit(s[i])
    ensures s[0] == '0' <==> n == 0
  {
    if n < 10 then [Digit(n)] else NatToString(n / 10) + [Digit(n % 10)]
  }

  /** Value of a non-empty string of decimal digits; `None` for anything else. */
  function ParseNat(s: string): Option<nat>
  {
    if |s| == 0 || !IsDigit(s[|s| - 1]) then None
    else if |s| == 1 then Some(DigitValue(s[0]))
    else
      match ParseNat(s[..|s| - 1])
      case None => None
      case Some(v) => Some(10 * v + DigitValue(s[|s| - 1]))
  }

  /** Decimal spelling of an integer, with a leading `-` when negative. */
  function IntToString(n: int): (s: string)
    ensures |s| >= 1
    ensures s[0] == '-' <==> n < 0
    ensures n < 0 ==> |s| >= 2
    ensures forall i :: 0 <= i < |s| ==> IsDigit(s[i]) || (i == 0 && s[i] == '-')
    ensures s[if n < 0 then 1 else 0] == '0' <==> n == 0
  {
    if n < 0 then "-" + NatToString(-n) else NatToString(n)
  }

  function ParseInt(s: string): Option<int>
  {
    if |s| > 0 && s[0] == '-' then
      match ParseNat(s[1..])
      case None => None
      case Some(v) => Some(0 - (v as int))
    else
      match ParseNat(s)
      case None => None
      case Some(v) => Some(v)
  }

  lemma {:induction false} ParseNatToString(n: nat)
    ensures ParseNat(NatToString(n)) == Some(n)
  {
    if n >= 10 {
      var s := NatToString(n);
      assert s[..|s| - 1] == NatToString(n / 10);
      ParseNatToString(n / 10);
    }
  }

  /** Reading back a rendered integer gives the integer. */
  lemma ParseIntToString(n: int)
    ensures ParseInt(IntToString(n)) == Some(n)
  {
    if n < 0 {
      assert IntToString(n)[1..] == NatToString(-n);
      ParseNatToString(-n);
    } else {
      ParseNatToString(n);
    }
  }
}

=== FILE: interpreter.dfy ===
/** The panel update made from a model reply (`activateView`): the parsed
    reply's nine keys are mapped onto the thirteen slots of the view. */
module Interpreter {
  import opened Wrappers
  import opened Bipolar
  import opened View

  /** A reply that parsed as JSON with keys "1" to "9": five category labels
      and four percentage pairs. */
  datatype Reply = Reply(
    feeling: string,
    thinking: string,
    introvertExtrovert: Pair,
    positiveNegative: Pair,
    certainUncertain: Pair,
    feelingThinking: Pair,
    time: string,
    sense: string,
    person: string)
  {
    /** The five category labels carry no `<`, so they stay inside their slots. */
    predicate NoMarkup()
    {
      '<' !in feeling && '<' !in thinking && '<' !in time && '<' !in sense && '<' !in person
    }
  }

  /** What `activateView` does to the panel. */
  datatype ViewUpdate =
    | Rendered(html: string)
    | ErrorNotice  // parsing or indexing threw: the notice is shown, the panel keeps its content

  /** The slot values of a reply: categories pass through unchanged, each pair
      becomes its dominant and its secondary label. */
  function ReplySlots(r: Reply): (s: Slots)
    ensures s.feeling == r.feeling && s.thinking == r.thinking
    ensures s.time == r.time && s.sense == r.sense && s.person == r.person
    ensures LabelPair(s.ie1, s.ie2) == Dominance(IntrovertExtrovert, r.introvertExtrovert)
    ensures LabelPair(s.pn1, s.pn2) == Dominance(PositiveNegative, r.positiveNegative)
    ensures LabelPair(s.cu1, s.cu2) == Dominance(CertainUncertain, r.certainUncertain)
    ensures LabelPair(s.ft1, s.ft2) == Dominance(FeelingThinking, r.feelingThinking)
  {
    var ie := Dominance(IntrovertExtrovert, r.introvertExtrovert);
    var pn := Dominance(PositiveNegative, r.positiveNegative);
    var cu := Dominance(CertainUncertain, r.certainUncertain);
    var ft := Dominance(FeelingThinking, r.feelingThinking);
    Slots(r.feeling, r.thinking,
          ie.primary, ie.secondary, pn.primary, pn.secondary,
          cu.primary, cu.secondary, ft.primary, ft.secondary,
          r.time, r.sense, r.person)
  }

  /** Every pair of slots meets the labelling promise: both poles once, each
      with its own number, the larger number in bold, the second pole on a tie. */
  lemma ReplySlotsDescribe(r: Reply)
    ensures var s := ReplySlots(r);
      && Describes(IntrovertExtrovert, r.introvertExtrovert, LabelPair(s.ie1, s.ie2))
      && Describes(PositiveNegative, r.positiveNegative, LabelPair(s.pn1, s.pn2))
      && Describes(CertainUncertain, r.certainUncertain, LabelPair(s.cu1, s.cu2))
      && Describes(FeelingThinking, r.feelingThinking, LabelPair(s.ft1, s.ft2))
  {
    var s := ReplySlots(r);
    StandardPoles();
    DominanceDescribes(IntrovertExtrovert, r.introvertExtrovert, LabelPair(s.ie1, s.ie2));
    DominanceDescribes(PositiveNegative, r.positiveNegative, LabelPair(s.pn1, s.pn2));
    DominanceDescribes(CertainUncertain, r.certainUncertain, LabelPair(s.cu1, s.cu2));
    DominanceDescribes(FeelingThinking, r.feelingThinking, LabelPair(s.ft1, s.ft2));
  }

  /** Reads the reply back from the slot values. */
  function RecoverReply(s: Slots): Option<Reply>
  {
    match (RecoverPair(IntrovertExtrovert, LabelPair(s.ie1, s.ie2)),
           RecoverPair(PositiveNegative, LabelPair(s.pn1, s.pn2)),
           RecoverPair(CertainUncertain, LabelPair(s.cu1, s.cu2)),
           RecoverPair(FeelingThinking, LabelPair(s.ft1, s.ft2)))
    case (Some(ie), Some(pn), Some(cu), Some(ft)) =>
      Some(Reply(s.feeling, s.thinking, ie, pn, cu, ft, s.time, s.sense, s.person))
    case _ => None
  }

  /** Reads a rendered panel back into the reply it shows. */
  function ReadAnalysis(html: string): Option<Reply>
  {
    match ReadView(html)
    case Some(s) => RecoverReply(s)
    case None => None
  }

  /** The slots lose none of the nine values. */
  lemma RecoverReplySlots(r: Reply)
    ensures RecoverReply(ReplySlots(r)) == Some(r)
  {
    StandardPoles();
    RecoverDominance(IntrovertExtrovert, r.introvertExtrovert);
    RecoverDominance(PositiveNegative, r.positiveNegative);
    RecoverDominance(CertainUncertain, r.certainUncertain);
    RecoverDominance(FeelingThinking, r.feelingThinking);
  }

  /** The generated labels never contain `<`. */
  lemma SlotsHaveNoMarkup(r: Reply)
    ensures r.NoMarkup() ==> ReplySlots(r).NoMarkup()
  {
    StandardPoles();
    DominanceHasNoMarkup(IntrovertExtrovert, r.introvertExtrovert);
    DominanceHasNoMarkup(PositiveNegative, r.positiveNegative);
    DominanceHasNoMarkup(CertainUncertain, r.certainUncertain);
    DominanceHasNoMarkup(FeelingThinking, r.feelingThinking);
    if r.NoMarkup() {
      NoMarkupFields(ReplySlots(r));
    }
  }

  /** `activateView`: a reply that did not parse shows the error notice;
      one that did fills the panel with the reply's slot values, each verbatim
      in its place, and when its categories carry no `<` the panel reads back
      as that very reply. */
  function ActivateView(parsed: Option<Reply>): (u: ViewUpdate)
    ensures parsed.None? <==> u.ErrorNotice?
    ensures parsed.Some? ==> forall i :: 0 <= i <= SlotCount ==>
      PieceAt(u.html, Pieces, ReplySlots(parsed.value).ToSeq(), i)
    ensures parsed.Some? ==> forall i :: 0 <= i < SlotCount ==>
      ArgAt(u.html, Pieces, ReplySlots(parsed.value).ToSeq(), i)
    ensures parsed.Some? && parsed.value.NoMarkup() ==> ReadAnalysis(u.html) == parsed
  {
    match parsed
    case None => ErrorNotice
    case Some(r) =>
      RecoverReplySlots(r);
      SlotsHaveNoMarkup(r);
      Rendered(ViewHtml(ReplySlots(r), false))
  }
}

=== FILE: prompt.dfy ===
/** Building the request for the completion endpoint from the note's text,
    and the word-count gate in front of it. */
module Prompt {
  import opened Strings

  /** The fixed instruction the word array is appended to, line by line. */
  const InstructionLines: seq<string> := [
    "You will be given an array of words, analyse the words.",
    "Your OUTPUT MUST ALWAYS BE IN JSON FORMAT.",
    "KEYS for the JSON object will the NUMBER OF THE ITEM IN THE LIST AS A STRING.",
    "If OPTIONS are PROVIDED then the value in the key/value pair will be JUST THE MOST DOMINANT OPTION AS A STRING.",
    "If OPTIONS are NOT PROVIDED then the value in the key/value pair will be an ARRAY of NUMBERS representing the PERCENTAGES of EACH characteristic IN THE ORDER OF THE INPUT.",
    "",
    "An example output:",
    "{",
    "\t1: \"Joy\",",
    "\t2: \"Work\",",
    "\t3: [40, 60],",
    "\t4: [21, 79],",
    "\t5: [46, 54],",
    "\t6: [10, 90],",
    "\t7: \"Present\",",
    "\t8: \"Sight\",",
    "\t9: \"I\"",
    "}",
    "",
    "1. Feeling",
    "   Options: Love, Anger, Joy, Fear, Overwhelm, Sadness",
    "2. Thinking Mostly About",
    "   Options: Work, Health, Improvement, Play, Spirituality, Family, Friends, Home, Money",
    "3. Introvert / Extrovert",
    "4. Positive / Negative",
    "5. Uncertain / Certain",
    "6. Feeling / Thinking",
    "7. Time Orientation",
    "   Options: Past, Present, Future",
    "8. Primary Sense",
    "   Options: Hearing, Sight, Smell, Touch",
    "9. Us and Them",
    "   Options: Us, Them, You, I",
    "",
    "Input Word Array: "
  ]

  const Instructions: string := Join("\n", InstructionLines)

  const SystemMessage: string :=
    "You are a skilled emotion detecting robot. You can detect different types of writing."

  const ModelName: string := "gpt-4"

  /** Notes with fewer words than this are not analysed. */
  const MinWords: nat := 100

  /** The words of a note: `contents.split(" ")`. */
  function Words(contents: string): (words: seq<string>)
    ensures |words| >= 1
    ensures forall i :: 0 <= i < |words| ==> ' ' !in words[i]
    ensures Join(" ", words) == contents
  {
    SplitLossless(contents, ' ');
    Split(contents, ' ')
  }

  /** `contents.split(" ").length`: one more than the number of spaces, so
      even the empty note counts as one word. */
  function WordCount(contents: string): (n: nat)
    ensures n == Count(contents, ' ') + 1
  {
    SplitLength(contents, ' ');
    |Words(contents)|
  }

  predicate HasEnoughWords(contents: string)
  {
    WordCount(contents) >= MinWords
  }

  /** The user message: the instructions, then the words joined by ", " in
      brackets; this is the note with every space turned into ", ". */
  function UserMessage(contents: string): (m: string)
    ensures m == Instructions + "[" + Replace(contents, ' ', ", ") + "]"
  {
    JoinSplit(contents, ' ', ", ");
    Instructions + "[" + Join(", ", Words(contents)) + "]"
  }
}

=== FILE: strings.dfy ===
/** The few JavaScript string operations the plugin relies on:
    `split` with a one-character separator, `join`, and `substring(n)`. */
module Strings {

  /** Number of occurrences of `c` in `s`. */
  function Count(s: string, c: char): nat
  {
    if s == [] then 0 else (if s[0] == c then 1 else 0) + Count(s[1..], c)
  }

  /** `s.split(sep)`: the maximal runs of `s` between separators, in order.
      As in JavaScript, the empty string splits into one empty part, and
      adjacent separators yield empty parts. */
  function Split(s: string, sep: char): (parts: seq<string>)
    ensures |parts| >= 1
    ensures forall i :: 0 <= i < |parts| ==> sep !in parts[i]
  {
    if s == [] then [""]
    else
      var rest := Split(s[1..], sep);
      if s[0] == sep then [""] + rest
      else [[s[0]] + rest[0]] + rest[1..]
  }

  /** `parts.join(glue)`. */
  function Join(glue: string, parts: seq<string>): string
  {
    if |parts| == 0 then ""
    else if |parts| == 1 then parts[0]
    else parts[0] + glue + Join(glue, parts[1..])
  }

  /** `s` with every occurrence of `c` replaced by `with`, character by character. */
  function Replace(s: string, c: char, with: string): string
  {
    if s == [] then "" else (if s[0] == c then with else [s[0]]) + Replace(s[1..], c, with)
  }

  /** `s.substring(n)` for a non-negative `n`: indices past the end clamp to it. */
  function Drop(s: string, n: nat): (t: string)
    ensures |t| == if n <= |s| then |s| - n else 0
    ensures s[|s| - |t|..] == t
  {
    s[if n <= |s| then n else |s|..]
  }

  /** Splitting yields one more part than there are separators. */
  lemma {:induction false} SplitLength(s: string, sep: char)
    ensures |Split(s, sep)| == Count(s, sep) + 1
  {
    if s != [] {
      SplitLength(s[1..], sep);
    }
  }

  /** Joining the parts with `glue` is the same as replacing each separator by `glue`. */
  lemma {:induction false} JoinSplit(s: string, sep: char, glue: string)
    ensures Join(glue, Split(s, sep)) == Replace(s, sep, glue)
  {
    if s != [] {
      var rest := Split(s[1..], sep);
      JoinSplit(s[1..], sep, glue);
      if s[0] == sep {
        var parts := [""] + rest;
        assert parts[1..] == rest;
      } else {
        var parts := [[s[0]] + rest[0]] + rest[1..];
        if |rest| == 1 {
          assert parts == [[s[0]] + rest[0]];
        } else {
          assert parts[1..] == rest[1..];
          assert ([s[0]] + rest[0]) + glue + Join(glue, rest[1..])
              == [s[0]] + (rest[0] + glue + Join(glue, rest[1..]));
        }
      }
    }
  }

  /** Replacing a character by itself changes nothing. */
  lemma {:induction false} ReplaceSelf(s: string, c: char)
    ensures Replace(s, c, [c]) == s
  {
    if s != [] {
      ReplaceSelf(s[1..], c);
      assert s == [s[0]] + s[1..];
    }
  }

  /** Splitting loses nothing: joining the parts back with the separator gives `s`. */
  lemma SplitLossless(s: string, sep: char)
    ensures Join([sep], Split(s, sep)) == s
  {
    JoinSplit(s, sep, [sep]);
    ReplaceSelf(s, sep);
  }

  /** The first part is the prefix of `s` up to (not including) the first separator. */
  lemma {:induction false} SplitHead(s: string, sep: char)
    ensures Split(s, sep)[0] <= s
    ensures |Split(s, sep)[0]| == |s| || s[|Split(s, sep)[0]|] == sep
  {
    if s != [] && s[0] != sep {
      SplitHead(s[1..], sep);
    }
  }

  /** A string without the separator is a single part. */
  lemma {:induction false} SplitWithout(s: string, sep: char)
    requires sep !in s
    ensures Split(s, sep) == [s]
  {
    if s != [] {
      SplitWithout(s[1..], sep);
      assert s == [s[0]] + s[1..];
    }
  }

  /** A separator-free prefix followed by a separator is split off as the first part. */
  lemma {:induction false} SplitAt(a: string, b: string, sep: char)
    requires sep !in a
    ensures Split(a + [sep] + b, sep) == [a] + Split(b, sep)
  {
    var s := a + [sep] + b;
    if a == [] {
      assert s[1..] == b;
    } else {
      assert s[1..] == a[1..] + [sep] + b;
      SplitAt(a[1..], b, sep);
      assert [a[0]] + a[1..] == a;
    }
  }
}

=== FILE: view.dfy ===
/** The side-panel fragment: a fixed template with thirteen slots, or a
    constant placeholder before any analysis. */
module View {
  import opened Wrappers
  import opened Strings

  /** The thirteen values the template shows, in slot order. */
  datatype Slots = Slots(
    feeling: string, thinking: string,
    ie1: string, ie2: string,
    pn1: string, pn2: string,
    cu1: string, cu2: string,
    ft1: string, ft2: string,
    time: string, sense: string, person: string)
  {
    function ToSeq(): (s: seq<string>)
      ensures |s| == SlotCount
    {
      [feeling, thinking, ie1, ie2, pn1, pn2, cu1, cu2, ft1, ft2, time, sense, person]
    }

    /** No slot value contains `<`, the character every template piece after a slot starts with. */
    predicate NoMarkup()
    {
      forall i :: 0 <= i < SlotCount ==> '<' !in ToSeq()[i]
    }
  }

  const SlotCount: nat := 13

  /** Slot by slot, no value contains `<`. */
  lemma NoMarkupFields(slots: Slots)
    requires '<' !in slots.feeling && '<' !in slots.thinking
    requires '<' !in slots.ie1 && '<' !in slots.ie2 && '<' !in slots.pn1 && '<' !in slots.pn2
    requires '<' !in slots.cu1 && '<' !in slots.cu2 && '<' !in slots.ft1 && '<' !in slots.ft2
    requires '<' !in slots.time && '<' !in slots.sense && '<' !in slots.person
    ensures slots.NoMarkup()
  {
    forall i | 0 <= i < SlotCount
      ensures '<' !in slots.ToSeq()[i]
    {
    }
  }

  function FromSeq(s: seq<string>): (slots: Slots)
    requires |s| == SlotCount
    ensures slots.ToSeq() == s
  {
    Slots(s[0], s[1], s[2], s[3], s[4], s[5], s[6], s[7], s[8], s[9], s[10], s[11], s[12])
  }

  /** Shown by a freshly opened panel. */
  const UnanalysedHtml: string :=
    "<h2 class=\"px-4\">Sentimental Analysis</h2>"
    + "<h4 class=\"px-4\">Analysis not done yet.</h4>"

  /** The fixed text around and between the thirteen slots, line by line;
      each piece after the first opens with the tag that closes the slot before it. */
  const Pieces: seq<string> := [
    "\n"
    + "<h2 class=\"px-4\">Sentimental Analysis</h2>\n"
    + "<div class=\"flex flex-col gap-2 px-4\">\n"
    + "\t<div class=\"flex items-center gap-3\">\n"
    + "\t\t<h4 class=\"text-lg font-bold\">Feeling</h4>\n"
    + "\t\t<div id=\"feeling\">",
    "</div>"
    + "\n\t</div>\n"
    + "\t<div class=\"flex items-center gap-3\">\n"
    + "\t\t<h4 class=\"text-lg font-bold\">Thinking Mostly About</h4>\n"
    + "\t\t<div id=\"thinking\">",
    "</div>"
    + "\n\t</div>\n"
    + "\t<div class=\"flex items-center gap-1.5\">\n"
    + "\t\t<h4 class=\"text-lg font-bold\" id=\"i-e-1\">",
    "</h4>"
    + "\n\t\t/ <span id=\"i-e-2\">",
    "</span>"
    + "\n\t</div>\n"
    + "\t<div class=\"flex items-center gap-1.5\">\n"
    + "\t\t<h4 class=\"text-lg font-bold\" id=\"p-n-1\">",
    "</h4>"
    + "\n\t\t/ <span id=\"p-n-2\">",
    "</span>"
    + "\n\t</div>\n"
    + "\t<div class=\"flex items-center gap-1.5\">\n"
    + "\t\t<h4 class=\"text-lg font-bold\" id=\"c-u-1\">",
    "</h4>"
    + "\n\t\t/ <span id=\"c-u-2\">",
    "</span>"
    + "\n\t</div>\n"
    + "\t<div class=\"flex items-center gap-1.5\">\n"
    + "\t\t<h4 class=\"text-lg font-bold\" id=\"f-t-1\">",
    "</h4>"
    + "\n\t\t/ <span id=\"f-t-2\">",
    "</span>"
    + "\n\t</div>\n"
    + "\t<div class=\"flex items-center gap-3\">\n"
    + "\t\t<h4 class=\"text-lg font-bold\">Time Orientation</h4>\n"
    + "\t\t<div id=\"time\">",
    "</div>"
    + "\n\t</div>\n"
    + "\t<div class=\"flex items-center gap-3\">\n"
    + "\t\t<h4 class=\"text-lg font-bold\">Primary Sense</h4>\n"
    + "\t\t<div id=\"sense\">",
    "</div>"
    + "\n\t</div>\n"
    + "\t<div class=\"flex items-center gap-3\">\n"
    + "\t\t<h4 class=\"text-lg font-bold\">Us and Them</h4>\n"
    + "\t\t<div id=\"person\">",
    "</div>"
    + "\n\t</div>\n"
    + "</div>"
  ]

  /** Every piece after the first opens with a tag, so a slot ends at the next `<`. */
  predicate Delimited(pieces: seq<string>)
  {
    forall i :: 1 <= i < |pieces| ==> pieces[i] != "" && pieces[i][0] == '<'
  }

  /** Template substitution: `pieces[0] + args[0] + pieces[1] + ... + pieces[n]`. */
  function Fill(pieces: seq<string>, args: seq<string>): (html: string)
    requires |pieces| == |args| + 1
    ensures pieces[0] <= html
  {
    if |args| == 0 then pieces[0]
    else pieces[0] + args[0] + Fill(pieces[1..], args[1..])
  }

  /** Where `pieces[i]` starts in a filled template: the lengths of the
      pieces and arguments before it. */
  function Offset(pieces: seq<string>, args: seq<string>, i: nat): nat
    requires |pieces| == |args| + 1 && i <= |args|
  {
    if i == 0 then 0 else |pieces[0]| + |args[0]| + Offset(pieces[1..], args[1..], i - 1)
  }

  /** `html` holds `pieces[i]` verbatim at its offset. */
  predicate PieceAt(html: string, pieces: seq<string>, args: seq<string>, i: nat)
    requires |pieces| == |args| + 1 && i <= |args|
  {
    var o := Offset(pieces, args, i);
    o + |pieces[i]| <= |html| && html[o..o + |pieces[i]|] == pieces[i]
  }

  /** `html` holds `args[i]` verbatim right after `pieces[i]`, and `pieces[i + 1]` starts where it ends. */
  predicate ArgAt(html: string, pieces: seq<string>, args: seq<string>, i: nat)
    requires |pieces| == |args| + 1 && i < |args|
  {
    var o := Offset(pieces, args, i) + |pieces[i]|;
    && Offset(pieces, args, i + 1) == o + |args[i]|
    && o + |args[i]| <= |html|
    && html[o..o + |args[i]|] == args[i]
  }

  /** A slice of the part after `front` is the same slice shifted by `|front|`. */
  lemma SliceAfter(front: string, back: string, lo: nat, hi: nat)
    requires lo <= hi <= |back|
    ensures (front + back)[|front| + lo..|front| + hi] == back[lo..hi]
  {
  }

  /** One position of a filled template: the piece at index `i`, then (unless
      it is the last piece) the argument at index `i`. */
  lemma {:induction false} FillAt(pieces: seq<string>, args: seq<string>, i: nat)
    requires |pieces| == |args| + 1 && i <= |args|
    ensures PieceAt(Fill(pieces, args), pieces, args, i)
    ensures i < |args| ==> ArgAt(Fill(pieces, args), pieces, args, i)
    ensures i == |args| ==> |Fill(pieces, args)| == Offset(pieces, args, i) + |pieces[i]|
  {
    if |args| > 0 {
      var p', a' := pieces[1..], args[1..];
      var front, rest := pieces[0] + args[0], Fill(p', a');
      assert Fill(pieces, args) == front + rest;
      if i == 0 {
        assert front[..|pieces[0]|] == pieces[0];
        assert front[|pieces[0]|..] == args[0];
      } else {
        FillAt(p', a', i - 1);
        var o := Offset(p', a', i - 1);
        assert Offset(pieces, args, i) == |front| + o;
        assert pieces[i] == p'[i - 1];
        SliceAfter(front, rest, o, o + |pieces[i]|);
        if i < |args| {
          var q := o + |pieces[i]|;
          assert args[i] == a'[i - 1];
          assert Offset(pieces, args, i + 1) == |front| + Offset(p', a', i);
          SliceAfter(front, rest, q, q + |args[i]|);
        }
      }
    }
  }

  /** A filled template is every piece and every argument, each verbatim at
      its own offset, in the order piece, argument, piece, ..., piece, and nothing more. */
  lemma FillLayout(pieces: seq<string>, args: seq<string>)
    requires |pieces| == |args| + 1
    ensures |Fill(pieces, args)| == Offset(pieces, args, |args|) + |pieces[|args|]|
    ensures forall i :: 0 <= i <= |args| ==> PieceAt(Fill(pieces, args), pieces, args, i)
    ensures forall i :: 0 <= i < |args| ==> ArgAt(Fill(pieces, args), pieces, args, i)
  {
    forall i | 0 <= i <= |args|
      ensures PieceAt(Fill(pieces, args), pieces, args, i)
      ensures i < |args| ==> ArgAt(Fill(pieces, args), pieces, args, i)
    {
      FillAt(pieces, args, i);
    }
    FillAt(pieces, args, |args|);
  }

  /** Reads the slot values back out of a filled template: each slot runs up
      to the next `<`, and the fixed pieces must match exactly. */
  function ReadSlots(html: string, pieces: seq<string>): Option<seq<string>>
    decreases |pieces|
  {
    if |pieces| == 0 || !(pieces[0] <= html) then None
    else
      var rest := html[|pieces[0]|..];
      if |pieces| == 1 then (if rest == "" then Some([]) else None)
      else
        var slot := Split(rest, '<')[0];
        SplitHead(rest, '<');
        match ReadSlots(rest[|slot|..], pieces[1..])
        case None => None
        case Some(more) => Some([slot] + more)
  }

  /** Filling then reading gives back every argument, in order. */
  lemma {:induction false} ReadFill(pieces: seq<string>, args: seq<string>)
    requires |pieces| == |args| + 1
    requires Delimited(pieces)
    ensures (forall i :: 0 <= i < |args| ==> '<' !in args[i]) ==> ReadSlots(Fill(pieces, args), pieces) == Some(args)
  {
    var html := Fill(pieces, args);
    var rest := html[|pieces[0]|..];
    if |args| == 0 {
      assert rest == "";
    } else if forall i :: 0 <= i < |args| ==> '<' !in args[i] {
      var tail := Fill(pieces[1..], args[1..]);
      assert rest == args[0] + tail;
      assert tail[0] == '<' && tail == ['<'] + tail[1..];
      assert rest == args[0] + ['<'] + tail[1..];
      SplitAt(args[0], tail[1..], '<');
      assert rest[|args[0]|..] == tail;
      ReadFill(pieces[1..], args[1..]);
      assert [args[0]] + args[1..] == args;
    }
  }

  /** Reads a rendered panel back into its slots; `None` when it is not a filled template. */
  function ReadView(html: string): Option<Slots>
  {
    match ReadSlots(html, Pieces)
    case Some(args) => if |args| == SlotCount then Some(FromSeq(args)) else None
    case None => None
  }

  /** The placeholder never reads as an analysis. */
  lemma UnanalysedIsNoView()
    ensures ReadView(UnanalysedHtml) == None
  {
    assert Pieces[0][0] == '\n';
    assert UnanalysedHtml[0] == '<';
  }

  lemma PiecesDelimited()
    ensures Delimited(Pieces)
  {
    assert Pieces[1][0] == '<';
  }

  /** Renders the panel. The placeholder ignores every slot; a filled panel
      shows all thirteen values verbatim in slot order, each between its two
      fixed pieces, and when none contains `<` they can be read back. */
  function ViewHtml(slots: Slots, unanalysed: bool): (html: string)
    ensures unanalysed ==> html == UnanalysedHtml && ReadView(html) == None
    ensures !unanalysed ==> forall i :: 0 <= i <= SlotCount ==> PieceAt(html, Pieces, slots.ToSeq(), i)
    ensures !unanalysed ==> forall i :: 0 <= i < SlotCount ==> ArgAt(html, Pieces, slots.ToSeq(), i)
    ensures !unanalysed && slots.NoMarkup() ==> ReadView(html) == Some(slots)
  {
    UnanalysedIsNoView();
    PiecesDelimited();
    FillLayout(Pieces, slots.ToSeq());
    ReadFill(Pieces, slots.ToSeq());
    if unanalysed then UnanalysedHtml else Fill(Pieces, slots.ToSeq())
  }
}

=== FILE: wrappers.dfy ===
/** Optional values and results, used wherever the plugin may have nothing
    (no editor, no parsable reply) or may stop with a user notice. */
module Wrappers {

  datatype Option<+T> = None | Some(value: T) {

    /** The wrapped value, or `default` when there is none (JavaScript's `??`). */
    function GetOr(default: T): T {
      match this
      case Some(v) => v
      case None => default
    }
  }

  datatype Result<+T, +E> = Ok(value: T) | Err(error: E)
}
